=== FILE: README.md ===
# Flash10 review queue — a Dafny model

Flash10 is a vocabulary app. The user sees a word card for ten seconds and
then reports whether they mastered it. Mastered words enter a
spaced-repetition **review queue**. Each entry is at a discrete stage from 1
to 4 and is next due one interval after it was last mastered. The interval
table gives 0 ms, 1 hour, 1 day, 3 days and 7 days for stages 0 to 4. A
review session is built from the entries that are due. A failed review
puts the word back at stage 1.

The project models:

- the queue operations `saveToQueue`, `getDueItems` and `removeFromQueue`
  as pure functions over an explicit queue (`seq<ReviewItem>`) and an
  explicit clock `now` (module `ReviewService`, built on the order-preserving
  `SeqFilter.Filter`);
- the interval table (module `Types`, together with the records of types.ts);
- the session driver of `App.tsx`: start, review start, outcome handling,
  return home and restart, as a record state machine paired with the queue
  (module `Session`);
- the summary screen's per-stage histogram, chart buckets and pie split
  (module `SummaryView`);
- the flashcard's countdown, manual flip, outcome feedback, and the image
  lightbox's zoom and drag (module `Flashcard`). Zoom is counted in
  half-units, so 2 means 100% and 8 means 400%.

The model follows the code in these places:

- A failed review of a word that is not in the queue still creates it at
  stage 1. The remove step does nothing, and the save step then appends it.
- Re-mastering a word that is already queued keeps the entry's original
  word data. A failed review replaces the entry with the session's copy of
  the word, and moves it to the end of the queue.
- New entries are appended at the end. `findIndex` updates the first
  matching entry only.
- `getDueItems` returns the due entries in queue order. An entry due
  exactly at `now` counts as due.
- The histogram skips stages that have no slot, which are stages 5 and
  above. Negative stages are skipped as well, because in JavaScript
  `stageCounts[-1]++` writes a non-index property.
- If the batch fetch fails, `startSession` goes back home and keeps the
  previous words. If the batch is empty, the state is `LEARNING` with no
  card to show.

## Model

| member | source | states |
|---|---|---|
| Types.LemmaTableValues | types.ts:30-36 | the table has exactly five entries, 0, 3600000, 86400000, 259200000 and 604800000 ms, so the top stage is 4 |
| Types.LemmaIntervalsIncreasing | types.ts:30-36 | the table is strictly increasing over stages 0..4 |
| Types.LemmaHigherStageLaterDue | types.ts:30-36 | from the same `now`, a higher stage always gives a strictly later due time |
| ReviewService.FindIndex | reviewService.ts:17 | returns the first position holding the word, or none exactly when no entry holds it |
| ReviewService.Lookup | reviewService.ts:17-20 | the entry found belongs to the queue and carries the word; none exactly when the word is absent |
| ReviewService.NextStage | reviewService.ts:21 | the advanced stage always indexes the table and is at least 1; it is one up below the top and stays at 4 at or above it |
| ReviewService.SaveToQueue | reviewService.ts:12-35 | an absent word is appended at stage 1, mastered at `now`, due at `now + 3600000`, with every earlier entry unchanged and in order; a present word keeps the queue length and its word data, moves to `min(stage+1, 4)`, is due at `now` plus its new interval, and every other index is unchanged |
| ReviewService.GetDueItems | reviewService.ts:41-44 | the result contains exactly the queue's entries with `nextReviewAt <= now` (the boundary is inclusive) and nothing else |
| ReviewService.RemoveFromQueue | reviewService.ts:46-49 | the result contains no entry for the word and keeps every entry for any other word |
| ReviewService.LemmaSavePreservesValid | reviewService.ts:17-34 | saving keeps every stage in 1..4, keeps `nextReviewAt == lastMasteredAt + REVIEW_INTERVALS[stage]`, and keeps at most one entry per word |
| ReviewService.LemmaSaveNewWord | reviewService.ts:28-34 | saving a word that has no entry gives it exactly the fresh entry: stage 1, mastered at `now`, due at `now + 3600000` |
| ReviewService.LemmaSaveKnownWord | reviewService.ts:19-27 | saving a word that has an entry keeps that entry's original word data, moves it to `min(stage+1, 4)` and makes it due one interval of the new stage after `now` |
| ReviewService.LemmaSaveSaturates | reviewService.ts:21-26 | saving an entry already at stage 4 leaves it at stage 4 and refreshes its due time to `now + 604800000` |
| ReviewService.LemmaSaveMonotone | reviewService.ts:21-25 | saving never lowers a word's stage and never takes it above 4 |
| ReviewService.LemmaRepeatedSaves | reviewService.ts:19-34 | after n >= 1 saves of a new word, its stage is `min(n, 4)` and it is due one interval of that stage after the last save |
| ReviewService.LemmaDueIff | reviewService.ts:43 | an entry is in the due set if and only if `nextReviewAt <= now` |
| ReviewService.LemmaDueOrder | reviewService.ts:43 | the due query keeps queue order: the query of a concatenation is the concatenation of the queries |
| ReviewService.LemmaDueExtremes | reviewService.ts:41-44 | when every entry is due, the whole queue comes back unchanged; when none is, the result is empty |
| ReviewService.LemmaRemoveAbsent | reviewService.ts:46-47 | removing an absent word leaves the queue unchanged |
| ReviewService.LemmaRemoveOrder | reviewService.ts:47 | removal keeps the remaining entries in their relative order |
| ReviewService.LemmaRemoveIdempotent | reviewService.ts:46-49 | removing a word twice gives the same queue as removing it once |
| ReviewService.LemmaRemoveKeepsStages | reviewService.ts:46-49 | removal keeps every remaining stage non-negative, so the queue can be saved into afterwards |
| ReviewService.LemmaRemovePreservesValid | reviewService.ts:46-49 | removal keeps the queue invariant, and afterwards the word has no entry |
| Session.Initial | App.tsx:13-21 | the app starts on the home screen in the General category, with no words, index 0, score 0, no mastered words and no review session, over the stored queue; the session starts consistent, which is the base case for the bookkeeping invariant |
| Session.StartSession | App.tsx:33-49 | a fetched batch starts a learning session at index 0 with score 0 and no mastered words; a failed fetch returns home and keeps the old words, index, score and mastered words; the queue is untouched and the session stays consistent |
| Session.StartReviewSession | App.tsx:51-61 | with nothing due the app is unchanged; otherwise the words are the due items' word data in queue order, at index 0 with score 0, in the reviewing state; the queue is untouched |
| Session.HandleNext | App.tsx:63-80 | mastery saves the word once, adds 1 to the score and appends the word to the mastered list; a failure while reviewing is remove-then-save; a failure while learning leaves the queue alone; the index advances unless the word was the last one, in which case the state becomes the summary |
| Session.ResetToHome | App.tsx:82-86 | the home screen returns with no words; category, index, score, mastered words, the review flag, the queue and session consistency are kept |
| Session.Restart | App.tsx:116 | the queue is untouched and consistency is kept; a finished review with nothing due stays exactly as it was (on the summary); one with items due becomes a review session in the same category whose words are the due items' word data in queue order, at index 0 with score 0 and no mastered words; any other session keeps its category and fetches a new batch: on success a learning session on that batch at index 0 with score 0 and no mastered words, on failure the home screen with the old words, index, score and mastered words |
| Session.LemmaHandleNextConsistent | App.tsx:63-80 | after each outcome the score still equals the number of mastered words and never exceeds the number of outcomes recorded |
| Session.LemmaHandleNextValidQueue | App.tsx:63-73 | every outcome keeps the queue invariant: stages in 1..4, due times on schedule, and one entry per word |
| Session.LemmaReviewFailureResets | App.tsx:69-73 | a failed review leaves the word at stage 1 due at `now + 3600000`, whatever its prior stage and even if it was absent; the other entries keep their order and the word is last |
| Session.StaleHandleNext | App.tsx:63-80 | a repeated report from a closure captured at an earlier card: the earlier card's word is scored and saved again, the index step is applied to the current index, and the earlier card's position decides between stepping and the summary |
| Session.LemmaStaleFirstReport | App.tsx:63-80 | on the state it was captured in, the stale closure is exactly `handleNext` |
| Session.LemmaDoubleClickOverruns | App.tsx:63-80 | two "mastered" reports on the first card of a two-word session leave an active session at index 2 of 2 with score 2, which is inconsistent and points at no card |
| Session.GuardedHandleNext | App.tsx:63-80 | corrected `handleNext`: a report for a card already judged changes nothing; otherwise it is `handleNext`; consistency and non-negative stages are kept |
| Session.LemmaGuardedFirstReport | App.tsx:63-80 | the first report on a card is the plain `handleNext` |
| Session.LemmaGuardedIgnoresRepeat | App.tsx:63-80 | a second report on the same card, with either outcome, leaves the app as the first report left it |
| Session.LemmaGuardedDoubleClickConsistent | App.tsx:63-80 | with the guard, two reports on one card keep the bookkeeping consistent, and an active session's index stays on a card |
| Session.LemmaFailureThenMastery | App.tsx:65-73 | after a failed review, the word's next mastery takes it to stage 2, due one day later, and not to its prior stage plus one |
| SummaryView.StageCounts | components/SummaryView.tsx:21-26 | slot `s` (0..4) holds the number of queue entries at stage `s`, as given by the reference count `CountStage` |
| SummaryView.LemmaCountedBound | components/SummaryView.tsx:20-26 | the counted entries never exceed the queue length, and they equal it when every stage is in 0..4 |
| SummaryView.LemmaStageCountsSum | components/SummaryView.tsx:20-26 | the histogram adds up to the number of counted entries, so at most the bank size |
| SummaryView.LemmaNoStageZero | components/SummaryView.tsx:21-26 | a valid queue has no entry at stage 0, so the histogram's stage-0 slot is empty |
| SummaryView.DistributionData | components/SummaryView.tsx:32-37 | exactly four buckets, showing stages 1 to 4 in order; stage 0 is not shown |
| SummaryView.LemmaBucketsCoverQueue | components/SummaryView.tsx:32-37 | for a valid queue the four buckets add up to the number of words in the bank |
| SummaryView.PieData | components/SummaryView.tsx:42-45 | two slices, the score and `total - score`, which together add up to `total` |
| SummaryView.LemmaPieNonNegative | components/SummaryView.tsx:42-45 | on the summary of a consistent session, the "still need practice" slice equals `total - score` and is non-negative |
| Flashcard.ShowWord | components/FlashcardView.tsx:97-105 | a new word resets the countdown to 10, shows the card front, clears the feedback, closes the lightbox and starts the timer |
| Flashcard.Tick | components/FlashcardView.tsx:105-114 | a tick counts down while more than 1 second is left; otherwise it shows 0, flips the card and stops the timer; the time left is never negative |
| Flashcard.Elapse | components/FlashcardView.tsx:105-114 | time passing changes nothing once the interval has been cleared; it never touches feedback or the lightbox, never raises the time left or makes it negative, and never unflips the card |
| Flashcard.LemmaCountdown | components/FlashcardView.tsx:97-114 | after `n` firings of the one-second interval since a word is shown, the time left is `max(10 - n, 0)`; the card has flipped and the timer has stopped exactly when `n >= 10` |
| Flashcard.ManualFlip | components/FlashcardView.tsx:129-133 | a manual flip shows 0 seconds, flips the card and stops the countdown |
| Flashcard.LemmaFlippedIsFinal | components/FlashcardView.tsx:129-133 | once flipped by hand, the card does not change as time passes |
| Flashcard.Judge | components/FlashcardView.tsx:140-149 | the feedback shows success or failure to match the outcome, and the countdown, flip, timer and lightbox are unchanged |
| Flashcard.LemmaJudgeCommutesWithTime | components/FlashcardView.tsx:140-149 | the feedback window does not disturb the countdown: judging and then letting time pass equals letting time pass and then judging |
| Flashcard.ZoomIn | components/FlashcardView.tsx:152 | zoom rises by half a step, is capped at 400%, and stays within 100%..400% |
| Flashcard.ZoomOut | components/FlashcardView.tsx:153-159 | zoom falls by half a step, is floored at 100%, and stays in range; reaching 100% recentres the image |
| Flashcard.LemmaZoomRoundTrip | components/FlashcardView.tsx:152-159 | away from the bounds, zoom-in and zoom-out undo each other; going out to 100% and back in loses the pan position |
| Flashcard.MouseDown | components/FlashcardView.tsx:161-165 | a drag starts only when zoom is above 100%, and at 100% nothing changes |
| Flashcard.MouseMove | components/FlashcardView.tsx:167-173 | while dragging, the image is placed at the pointer minus the grab offset; otherwise nothing changes; zoom, dragging and the grab offset are kept |
| Flashcard.LemmaDragFollowsPointer | components/FlashcardView.tsx:167-173 | two moves within one drag place the image exactly the pointer delta apart |
| Flashcard.MouseUp | components/FlashcardView.tsx:175 | mouse-up always ends dragging and leaves zoom and position alone |
| Flashcard.LemmaDragTranslates | components/FlashcardView.tsx:161-173 | grabbing a zoomed image and moving the pointer by (dx, dy) moves the image by exactly (dx, dy) |
| Flashcard.LemmaInitialLightbox | components/FlashcardView.tsx:53-56 | the lightbox state at mount (100%, centred, not dragging) satisfies the lightbox invariant |
| Flashcard.LemmaLightboxInvariant | components/FlashcardView.tsx:152-175 | every lightbox update keeps zoom in 100%..400% and keeps the image centred and undragged at 100%, provided zoom-out is not pressed mid-drag |

## Left out

- Persistence: `getQueue` and the `localStorage`/JSON writes (reviewService.ts:7-10, 37, 48) become the queue value itself. Corrupt stored data makes `JSON.parse` throw in the source. No recovery path is modelled.
- ReviewService.SaveToQueue: requires every stored stage to be at least 0, the lower end of the range documented at types.ts:26. For a stage below -1, `REVIEW_INTERVALS[nextStage]` would be `undefined` and the due time would be `NaN`.
- Timestamps, pixel positions and counts are unbounded integers. JavaScript numbers are doubles, and they are exact for epoch milliseconds and screen coordinates, so no rounding is modelled.
- `requestPermission` and `scheduleNotification` (reviewService.ts:38, 51-68) are left out: they call the browser Notification API through a timer and make a best-effort side effect. The source always passes the one-hour interval as the delay.
- geminiService.ts is left out because its calls go to an external generative API. `startSession` receives the batch, or its failure, as a parameter.
- Audio decoding and playback (components/FlashcardView.tsx:15-95, 116-122, 135-138) and the pronunciation call inside `handleMastered` are left out: they use the Web Audio and speech APIs.
- The `setTimeout` 400 ms delay before `onComplete` is not modelled. The outcome itself is `Session.HandleNext`.
- Opening and closing the lightbox by click (components/FlashcardView.tsx:236, 341) is left out as pure presentation. Showing a new word does close it (`Flashcard.ShowWord`). `onMouseLeave` is bound to the same handler as mouse-up.
- The one-second interval is modelled as a count of ticks (`Flashcard.Elapse`), not as wall-clock time.
- Session.LemmaHandleNextConsistent: holds only if each card reports exactly one outcome. The mastered and failed buttons are never disabled, and they call `onComplete` through a 400 ms `setTimeout` (components/FlashcardView.tsx:143, 148, 320-331). A second click within that window runs `handleNext` again with the stale `currentIndex`: the score and mastered list grow twice, `saveToQueue` runs twice, and the index skips a word. On the second-to-last card the index runs to `|words|` while the state stays learning or reviewing: App.tsx:102 then passes the card view an undefined word, and reading `word.word` (components/FlashcardView.tsx:95) throws while rendering, so the page goes blank. In a one-word session mastered twice, the score is 2 out of 1. The double click is modelled separately under "## Findings".
- Session.Consistent: the same one-outcome-per-card assumption applies. A double click breaks `currentIndex < |words|` and `score <= |words|`.
- SummaryView.LemmaPieNonNegative: the same assumption applies. With a double click, the "still need practice" slice can be negative.
- Session.HandleNext: assumes the storage write succeeds. `localStorage.setItem` in `saveToQueue` (reviewService.ts:37) can throw, for example on a quota error; a stored word usually carries a base64 image (geminiService.ts:83-94). Then the score increment and mastered append already queued at App.tsx:66-67 still apply, but the index or state step at App.tsx:75-79 is never reached, so `score > currentIndex` becomes possible. On a failed review, the removal (App.tsx:71) is already written, so a throwing re-save drops the word from the queue.
- `avgStage` with `toFixed`, `getEncouragement` and the percentage display (components/SummaryView.tsx:28-30, 48-54, 87) are left out because they are floating-point formatting.
- The once-a-minute polling of the due count, the `dueCount` badge (App.tsx:23-31, 85), and all rendering are left out. components/HomeView.tsx, components/Header.tsx and components/LoadingView.tsx are pure presentation.
- React state updates are modelled as applied in order. `handleNext` only uses updater functions or values read before any update, so batching does not change its result.

## Findings

| source | as written | input that shows it | evidently intended | confidence | as-written member | corrected member |
|---|---|---|---|---|---|---|
| App.tsx:63-80 | The mastered and failed buttons stay enabled while the 400 ms timer before `onComplete` runs (components/FlashcardView.tsx:140-149, 320-331). A second click therefore records a second outcome for the same card, using the `currentIndex` and `words.length` of the old render. | A two-word learning session at index 0 with "mastered" clicked twice within 400 ms. The index becomes 2 of 2 while the state stays learning and the score is 2. App.tsx:102 then renders `words[2]`, which is undefined. | Each card records exactly one outcome, and a report for a card that has already been judged is ignored. | not executed | Session.StaleHandleNext, Session.LemmaDoubleClickOverruns | Session.GuardedHandleNext, Session.LemmaGuardedIgnoresRepeat |

The rest of the model uses `Session.HandleNext` for a single report. `Session.LemmaGuardedFirstReport` shows that the guarded version is exactly that on a card's first report.

=== FILE: flashcard.dfy ===
/** The state updates of one flashcard (FlashcardView.tsx): the ten-second
    countdown that flips the card, the manual flip, the outcome feedback,
    and the image lightbox's zoom and drag-to-pan. Rendering, audio and the
    timers themselves are outside the model; each timer firing is one call
    of the corresponding update. */
module Flashcard {

  /** Seconds a card is shown before it flips by itself. */
  const CountdownSeconds: int := 10

  datatype Feedback = NoFeedback | Success | Failure

  datatype Card = Card(
    timeLeft: int,
    flipped: bool,
    feedback: Feedback,
    lightboxOpen: bool,
    timerRunning: bool)

  /** The reset when a new word is shown: full countdown, front side up, no
      feedback, lightbox closed and the countdown started. */
  function ShowWord(): (c: Card)
    ensures c.timeLeft == 10 && !c.flipped && c.feedback == NoFeedback
    ensures !c.lightboxOpen && c.timerRunning
  {
    Card(CountdownSeconds, false, NoFeedback, false, true)
  }

  /** One countdown tick: count down while more than one second is left;
      otherwise stop the timer, flip the card and show zero. */
  function Tick(c: Card): (r: Card)
    ensures r.timeLeft >= 0
    ensures c.timeLeft > 1 ==> r.timeLeft == c.timeLeft - 1 && r.flipped == c.flipped && r.timerRunning == c.timerRunning
    ensures c.timeLeft <= 1 ==> r.timeLeft == 0 && r.flipped && !r.timerRunning
    ensures r.feedback == c.feedback && r.lightboxOpen == c.lightboxOpen
  {
    if c.timeLeft <= 1 then c.(timeLeft := 0, flipped := true, timerRunning := false)
    else c.(timeLeft := c.timeLeft - 1)
  }

  /** `n` firings of the one-second interval, which fires until it has
      been cleared. */
  function Elapse(c: Card, n: nat): (r: Card)
    ensures !c.timerRunning || n == 0 ==> r == c
    ensures r.feedback == c.feedback && r.lightboxOpen == c.lightboxOpen
    ensures c.timeLeft >= 0 ==> 0 <= r.timeLeft <= c.timeLeft
    ensures c.flipped ==> r.flipped
    decreases n
  {
    if n == 0 || !c.timerRunning then c else Elapse(Tick(c), n - 1)
  }

  /** After `n` firings of the interval since a word is shown, the
      countdown reads max(10 - n, 0), and the card has flipped, with the
      timer stopped, exactly when there have been ten firings. */
  lemma LemmaCountdown(n: nat)
    ensures var c := Elapse(ShowWord(), n);
      && c.timeLeft == (if n < 10 then 10 - n else 0)
      && (c.flipped <==> n >= 10)
      && (c.timerRunning <==> n < 10)
  {
    LemmaCountdownFrom(ShowWord(), n);
  }

  /** Helper for `LemmaCountdown`: from any running, unflipped card with
      `t >= 1` seconds left. */
  lemma {:induction false} LemmaCountdownFrom(c: Card, n: nat)
    requires c.timerRunning && !c.flipped && c.timeLeft >= 1
    ensures var r := Elapse(c, n);
      && r.timeLeft == (if n < c.timeLeft then c.timeLeft - n else 0)
      && (r.flipped <==> n >= c.timeLeft)
      && (r.timerRunning <==> n < c.timeLeft)
    decreases n
  {
    if n > 0 {
      var c1 := Tick(c);
      if c.timeLeft > 1 {
        LemmaCountdownFrom(c1, n - 1);
      } else {
        assert Elapse(c1, n - 1) == c1;
      }
    }
  }

  /** `handleManualFlip`: stop the countdown, show zero and flip the card. */
  function ManualFlip(c: Card): (r: Card)
    ensures r.timeLeft == 0 && r.flipped && !r.timerRunning
    ensures r.feedback == c.feedback && r.lightboxOpen == c.lightboxOpen
  {
    c.(timeLeft := 0, flipped := true, timerRunning := false)
  }

  /** A flipped card whose timer is stopped is left alone by time passing. */
  lemma LemmaFlippedIsFinal(c: Card, n: nat)
    ensures Elapse(ManualFlip(c), n) == ManualFlip(c)
  {
  }

  /** `handleMastered` / `handleFailed`: the feedback shown before the outcome
      is reported to the session. */
  function Judge(c: Card, mastered: bool): (r: Card)
    ensures r.feedback == (if mastered then Success else Failure)
    ensures r.timeLeft == c.timeLeft && r.flipped == c.flipped
    ensures r.timerRunning == c.timerRunning && r.lightboxOpen == c.lightboxOpen
  {
    c.(feedback := if mastered then Success else Failure)
  }

  /** The feedback window does not disturb the countdown: judging and then
      letting time pass is the same as letting time pass and then judging. */
  lemma {:induction false} LemmaJudgeCommutesWithTime(c: Card, mastered: bool, n: nat)
    ensures Elapse(Judge(c, mastered), n) == Judge(Elapse(c, n), mastered)
    decreases n
  {
    if n > 0 && c.timerRunning {
      assert Tick(Judge(c, mastered)) == Judge(Tick(c), mastered);
      LemmaJudgeCommutesWithTime(Tick(c), mastered, n - 1);
    }
  }

  // ---------------------------------------------------------------------
  // Lightbox

  /** Zoom is kept in half-units, so 2 means 100% and 8 means 400%; every
      zoom step is exactly one half-unit. */
  const MinZoom: int := 2
  const MaxZoom: int := 8

  datatype Point = Point(x: int, y: int)

  const Origin: Point := Point(0, 0)

  datatype Lightbox = Lightbox(zoom: int, position: Point, dragging: bool, dragStart: Point)

  /** The lightbox's state when the flashcard view mounts. Showing a new
      word does not reset it: zoom, position and dragging carry over. */
  const InitialLightbox: Lightbox := Lightbox(MinZoom, Origin, false, Origin)

  predicate ZoomInRange(l: Lightbox)
  {
    MinZoom <= l.zoom <= MaxZoom
  }

  /** `handleZoomIn`: half a step up, capped at 400%. */
  function ZoomIn(l: Lightbox): (r: Lightbox)
    ensures ZoomInRange(l) ==> ZoomInRange(r)
    ensures l.zoom < MaxZoom ==> r.zoom == l.zoom + 1
    ensures l.zoom >= MaxZoom ==> r.zoom == MaxZoom
    ensures r.position == l.position && r.dragging == l.dragging
  {
    l.(zoom := if l.zoom + 1 < MaxZoom then l.zoom + 1 else MaxZoom)
  }

  /** `handleZoomOut`: half a step down, floored at 100%; reaching 100%
      recentres the image. */
  function ZoomOut(l: Lightbox): (r: Lightbox)
    ensures ZoomInRange(l) ==> ZoomInRange(r)
    ensures l.zoom > MinZoom ==> r.zoom == l.zoom - 1
    ensures l.zoom <= MinZoom ==> r.zoom == MinZoom
    ensures r.zoom == MinZoom ==> r.position == Origin
    ensures r.zoom != MinZoom ==> r.position == l.position
    ensures r.dragging == l.dragging
  {
    var z := if l.zoom - 1 > MinZoom then l.zoom - 1 else MinZoom;
    if z == MinZoom then l.(zoom := z, position := Origin) else l.(zoom := z)
  }

  /** Away from the bounds, zoom-in and zoom-out undo each other. Zooming
      out to 100% and back in loses the pan position, which was recentred. */
  lemma LemmaZoomRoundTrip(l: Lightbox)
    ensures MinZoom < l.zoom < MaxZoom ==> ZoomOut(ZoomIn(l)) == l
    ensures MinZoom + 1 < l.zoom <= MaxZoom ==> ZoomIn(ZoomOut(l)) == l
    ensures l.zoom == MinZoom + 1 ==> ZoomIn(ZoomOut(l)) == l.(position := Origin)
  {
  }

  /** `handleMouseDown`: dragging starts only when zoomed in; the grab point
      is remembered relative to the current position. */
  function MouseDown(l: Lightbox, clientX: int, clientY: int): (r: Lightbox)
    ensures l.zoom <= MinZoom ==> r == l
    ensures l.zoom > MinZoom ==> r.dragging && r.zoom == l.zoom && r.position == l.position
    ensures r.dragging ==> r.zoom > MinZoom || l.dragging
  {
    if l.zoom <= MinZoom then l
    else l.(dragging := true, dragStart := Point(clientX - l.position.x, clientY - l.position.y))
  }

  /** `handleMouseMove`: while dragging, the image follows the pointer. */
  function MouseMove(l: Lightbox, clientX: int, clientY: int): (r: Lightbox)
    ensures !l.dragging ==> r == l
    ensures l.dragging ==> r.position == Point(clientX - l.dragStart.x, clientY - l.dragStart.y)
    ensures r.zoom == l.zoom && r.dragging == l.dragging && r.dragStart == l.dragStart
  {
    if !l.dragging then l
    else l.(position := Point(clientX - l.dragStart.x, clientY - l.dragStart.y))
  }

  /** Within one drag, two pointer positions place the image exactly the
      pointer delta apart. */
  lemma LemmaDragFollowsPointer(l: Lightbox, x1: int, y1: int, x2: int, y2: int)
    requires l.dragging
    ensures var m1 := MouseMove(l, x1, y1);
      MouseMove(m1, x2, y2).position == Point(m1.position.x + (x2 - x1), m1.position.y + (y2 - y1))
  {
  }

  /** `handleMouseUp` (also bound to leaving the image): dragging ends. */
  function MouseUp(l: Lightbox): (r: Lightbox)
    ensures !r.dragging
    ensures r.zoom == l.zoom && r.position == l.position
  {
    l.(dragging := false)
  }

  /** Grabbing the zoomed image and moving the pointer by (dx, dy) moves the
      image by exactly (dx, dy). */
  lemma LemmaDragTranslates(l: Lightbox, clientX: int, clientY: int, dx: int, dy: int)
    requires l.zoom > MinZoom
    ensures MouseMove(MouseDown(l, clientX, clientY), clientX + dx, clientY + dy).position
      == Point(l.position.x + dx, l.position.y + dy)
  {
  }

  /** At 100% the image is centred and not being dragged. */
  predicate CentredAtMinimum(l: Lightbox)
  {
    l.zoom == MinZoom ==> l.position == Origin && !l.dragging
  }

  /** The mounted lightbox starts inside the invariant below. */
  lemma LemmaInitialLightbox()
    ensures ZoomInRange(InitialLightbox) && CentredAtMinimum(InitialLightbox)
  {
  }

  /** Every lightbox update keeps the zoom in range and the image centred
      at 100%, provided the zoom-out button is not pressed mid-drag (the
      buttons lie outside the drag surface, and leaving it ends a drag). */
  lemma LemmaLightboxInvariant(l: Lightbox, clientX: int, clientY: int)
    requires ZoomInRange(l) && CentredAtMinimum(l)
    ensures ZoomInRange(ZoomIn(l)) && CentredAtMinimum(ZoomIn(l))
    ensures !l.dragging ==> ZoomInRange(ZoomOut(l)) && CentredAtMinimum(ZoomOut(l))
    ensures ZoomInRange(MouseDown(l, clientX, clientY)) && CentredAtMinimum(MouseDown(l, clientX, clientY))
    ensures ZoomInRange(MouseMove(l, clientX, clientY)) && CentredAtMinimum(MouseMove(l, clientX, clientY))
    ensures ZoomInRange(MouseUp(l)) && CentredAtMinimum(MouseUp(l))
  {
  }
}

=== FILE: review_service.dfy ===
/** The spaced-repetition review queue (reviewService.ts). The browser's
    persistent storage is abstracted as the queue value itself: every
    operation takes the current queue and, where it writes, returns the new
    one. The clock is the explicit parameter `now` (epoch milliseconds). */
module ReviewService {
  import opened Wrappers
  import opened Types
  import SeqFilter

  type Queue = seq<ReviewItem>

  function Key(item: ReviewItem): string
  {
    item.wordData.word
  }

  /** Every stored stage is at least 0, the lower end of the documented
      range 0..4, so that `stage + 1`, capped at the top stage, indexes the
      interval table. */
  predicate StagesNonNegative(q: Queue)
  {
    forall i :: 0 <= i < |q| ==> 0 <= q[i].stage
  }

  /** An entry as the scheduler writes it: a stage in 1..4 and a due time one
      interval after the last mastery. */
  predicate Scheduled(item: ReviewItem)
  {
    && 1 <= item.stage <= MaxStage
    && item.nextReviewAt == item.lastMasteredAt + Interval(item.stage)
  }

  /** At most one entry per word. */
  predicate UniqueWords(q: Queue)
  {
    SeqFilter.DistinctBy(q, Key)
  }

  /** The invariant the queue operations maintain. */
  predicate ValidQueue(q: Queue)
  {
    && (forall i :: 0 <= i < |q| ==> Scheduled(q[i]))
    && UniqueWords(q)
  }

  /** The position of the first entry for word `w`, if any (`findIndex`). */
  function FindIndex(q: Queue, w: string): (r: Option<nat>)
    ensures r.None? <==> forall i :: 0 <= i < |q| ==> q[i].wordData.word != w
    ensures r.Some? ==> r.value < |q| && q[r.value].wordData.word == w
    ensures r.Some? ==> forall i :: 0 <= i < r.value ==> q[i].wordData.word != w
  {
    if |q| == 0 then None
    else if q[0].wordData.word == w then Some(0)
    else match FindIndex(q[1..], w)
      case None => None
      case Some(k) => Some(k + 1)
  }

  /** The first entry for word `w`, if any. */
  function Lookup(q: Queue, w: string): (r: Option<ReviewItem>)
    ensures r.Some? ==> r.value in q && r.value.wordData.word == w
    ensures r.None? <==> forall i :: 0 <= i < |q| ==> q[i].wordData.word != w
  {
    match FindIndex(q, w)
    case None => None
    case Some(k) => Some(q[k])
  }

  /** The stage a re-mastered entry moves to: one up, saturating at the top. */
  function NextStage(stage: int): (s: int)
    requires 0 <= stage
    ensures IsStage(s) && 1 <= s
    ensures stage < MaxStage ==> s == stage + 1
    ensures stage >= MaxStage ==> s == MaxStage
  {
    if stage + 1 < MaxStage then stage + 1 else MaxStage
  }

  /** `saveToQueue`: record that `word` was mastered at `now`. A word not in
      the queue is appended at stage 1; an existing entry advances one stage
      (saturating at 4), keeps its original word data and is due one
      interval of its new stage after `now`. */
  function SaveToQueue(q: Queue, word: WordData, now: int): (r: Queue)
    requires StagesNonNegative(q)
    ensures StagesNonNegative(r)
    ensures FindIndex(q, word.word).None? ==>
      && |r| == |q| + 1
      && r[..|q|] == q
      && r[|q|] == ReviewItem(word, now, 1, now + 3600000)
    ensures FindIndex(q, word.word).Some? ==>
      var k := FindIndex(q, word.word).value;
      && |r| == |q|
      && (forall i :: 0 <= i < |q| && i != k ==> r[i] == q[i])
      && r[k].wordData == q[k].wordData
      && r[k].lastMasteredAt == now
      && (q[k].stage < 4 ==> r[k].stage == q[k].stage + 1)
      && (q[k].stage >= 4 ==> r[k].stage == 4)
      && r[k].nextReviewAt == now + ReviewIntervals[r[k].stage]
  {
    match FindIndex(q, word.word)
    case None =>
      q + [ReviewItem(word, now, 1, now + Interval(1))]
    case Some(k) =>
      var stage := NextStage(q[k].stage);
      q[k := q[k].(lastMasteredAt := now, stage := stage, nextReviewAt := now + Interval(stage))]
  }

  /** `getDueItems`: the entries whose due time has been reached (inclusive),
      in queue order. */
  function GetDueItems(q: Queue, now: int): (r: Queue)
    ensures |r| <= |q|
    ensures forall x :: x in r ==> x in q && x.nextReviewAt <= now
    ensures forall i :: 0 <= i < |q| && q[i].nextReviewAt <= now ==> q[i] in r
  {
    SeqFilter.Filter(q, (item: ReviewItem) => now >= item.nextReviewAt)
  }

  /** `removeFromQueue`: drop every entry for word `w`, keeping the others in
      order. */
  function RemoveFromQueue(q: Queue, w: string): (r: Queue)
    ensures |r| <= |q|
    ensures forall x :: x in r ==> x in q && x.wordData.word != w
    ensures forall i :: 0 <= i < |q| && q[i].wordData.word != w ==> q[i] in r
  {
    SeqFilter.Filter(q, (item: ReviewItem) => item.wordData.word != w)
  }

  /** Removing entries keeps the stages of the rest, so the result can be
      saved into again. */
  lemma LemmaRemoveKeepsStages(q: Queue, w: string)
    requires StagesNonNegative(q)
    ensures StagesNonNegative(RemoveFromQueue(q, w))
  {
  }

  // ---------------------------------------------------------------------
  // Properties of saving

  /** Saving keeps every entry scheduled and at most one entry per word. */
  lemma LemmaSavePreservesValid(q: Queue, word: WordData, now: int)
    requires ValidQueue(q)
    ensures StagesNonNegative(q)
    ensures ValidQueue(SaveToQueue(q, word, now))
  {
    var r := SaveToQueue(q, word, now);
    match FindIndex(q, word.word)
    case None =>
      forall i, j | 0 <= i < j < |r|
        ensures Key(r[i]) != Key(r[j])
      {
        if j == |q| {
          assert r[i] == q[i];
        } else {
          assert r[i] == q[i] && r[j] == q[j];
        }
      }
    case Some(k) =>
      forall i, j | 0 <= i < j < |r|
        ensures Key(r[i]) != Key(r[j])
      {
        assert Key(r[i]) == Key(q[i]) && Key(r[j]) == Key(q[j]);
      }
  }

  /** Saving a word that has no entry creates exactly the fresh entry:
      stage 1, mastered at `now`, due one hour later. */
  lemma LemmaSaveNewWord(q: Queue, word: WordData, now: int)
    requires StagesNonNegative(q)
    requires Lookup(q, word.word).None?
    ensures Lookup(SaveToQueue(q, word, now), word.word) == Some(ReviewItem(word, now, 1, now + 3600000))
  {
    var r := SaveToQueue(q, word, now);
    assert forall i :: 0 <= i < |q| ==> r[i] == q[i];
    assert FindIndex(r, word.word) == Some(|q|);
  }

  /** Saving a word that has an entry moves that entry one stage up,
      saturating at 4, keeps its original word data, and makes it due one
      interval of the new stage after `now`. */
  lemma LemmaSaveKnownWord(q: Queue, word: WordData, now: int)
    requires StagesNonNegative(q)
    requires Lookup(q, word.word).Some?
    ensures var prior := Lookup(q, word.word).value;
      var s := if prior.stage < 4 then prior.stage + 1 else 4;
      Lookup(SaveToQueue(q, word, now), word.word)
        == Some(ReviewItem(prior.wordData, now, s, now + ReviewIntervals[s]))
  {
    var r := SaveToQueue(q, word, now);
    var k := FindIndex(q, word.word).value;
    assert forall i :: 0 <= i < k ==> r[i] == q[i];
    assert FindIndex(r, word.word) == Some(k);
  }

  /** Saturation: an entry already at the top stage stays there, and its due
      time is refreshed to seven days after `now`. */
  lemma LemmaSaveSaturates(q: Queue, word: WordData, now: int)
    requires StagesNonNegative(q)
    requires Lookup(q, word.word).Some? && Lookup(q, word.word).value.stage == 4
    ensures var r := Lookup(SaveToQueue(q, word, now), word.word);
      r.Some? && r.value.stage == 4 && r.value.nextReviewAt == now + 604800000
  {
    LemmaSaveKnownWord(q, word, now);
  }

  /** Saving never lowers an entry's stage and never passes the top stage
      of a scheduled entry. */
  lemma LemmaSaveMonotone(q: Queue, word: WordData, now: int)
    requires ValidQueue(q)
    ensures StagesNonNegative(q)
    ensures var r := Lookup(SaveToQueue(q, word, now), word.word);
      && r.Some?
      && 1 <= r.value.stage <= 4
      && (Lookup(q, word.word).Some? ==> Lookup(q, word.word).value.stage <= r.value.stage)
  {
    if Lookup(q, word.word).Some? {
      LemmaSaveKnownWord(q, word, now);
    } else {
      LemmaSaveNewWord(q, word, now);
    }
  }

  /** Mastering the same word at each of the instants `times`, in order. */
  function SaveAll(q: Queue, word: WordData, times: seq<int>): (r: Queue)
    requires ValidQueue(q)
    ensures ValidQueue(r)
    decreases |times|
  {
    if |times| == 0 then q
    else
      LemmaSavePreservesValid(q, word, times[0]);
      SaveAll(SaveToQueue(q, word, times[0]), word, times[1..])
  }

  /** Repeated mastery of a new word climbs one stage per save and stops at
      the top: after n >= 1 saves the entry is at stage min(n, 4), due one
      interval after the last save. */
  lemma {:induction false} LemmaRepeatedSaves(q: Queue, word: WordData, times: seq<int>)
    requires ValidQueue(q) && |times| > 0
    requires Lookup(q, word.word).None?
    ensures var s := if |times| < 4 then |times| else 4;
      var r := Lookup(SaveAll(q, word, times), word.word);
      && r.Some?
      && r.value.stage == s
      && r.value.nextReviewAt == times[|times| - 1] + ReviewIntervals[s]
  {
    LemmaSaveNewWord(q, word, times[0]);
    LemmaSavePreservesValid(q, word, times[0]);
    var q1 := SaveToQueue(q, word, times[0]);
    var rest := times[1..];
    assert SaveAll(q, word, times) == SaveAll(q1, word, rest);
    LemmaRepeatedSavesFrom(q1, word, rest, 1);
    if |rest| > 0 {
      assert rest[|rest| - 1] == times[|times| - 1];
    }
  }

  /** Helper for `LemmaRepeatedSaves`: starting from an entry at stage `s0`. */
  lemma {:induction false} LemmaRepeatedSavesFrom(q: Queue, word: WordData, times: seq<int>, s0: int)
    requires ValidQueue(q)
    requires Lookup(q, word.word).Some? && Lookup(q, word.word).value.stage == s0
    ensures var s := if s0 + |times| < 4 then s0 + |times| else 4;
      var r := Lookup(SaveAll(q, word, times), word.word);
      && r.Some?
      && (|times| > 0 ==> r.value.stage == s && r.value.nextReviewAt == times[|times| - 1] + ReviewIntervals[s])
      && (|times| == 0 ==> r == Lookup(q, word.word))
    decreases |times|
  {
    if |times| > 0 {
      LemmaSaveKnownWord(q, word, times[0]);
      LemmaSavePreservesValid(q, word, times[0]);
      var q1 := SaveToQueue(q, word, times[0]);
      var rest := times[1..];
      assert SaveAll(q, word, times) == SaveAll(q1, word, rest);
      var s1 := if s0 < 4 then s0 + 1 else 4;
      LemmaRepeatedSavesFrom(q1, word, rest, s1);
      if |rest| > 0 {
        assert rest[|rest| - 1] == times[|times| - 1];
      }
    }
  }

  // ---------------------------------------------------------------------
  // Properties of the due query and of removal

  /** An entry is due exactly when its due time is at or before `now`; the
      boundary is inclusive. */
  lemma LemmaDueIff(q: Queue, now: int, i: int)
    requires 0 <= i < |q|
    ensures q[i] in GetDueItems(q, now) <==> q[i].nextReviewAt <= now
  {
  }

  /** The due query preserves queue order: querying a concatenation is
      concatenating the queries. */
  lemma LemmaDueOrder(a: Queue, b: Queue, now: int)
    ensures GetDueItems(a + b, now) == GetDueItems(a, now) + GetDueItems(b, now)
  {
    SeqFilter.LemmaFilterConcat(a, b, (item: ReviewItem) => now >= item.nextReviewAt);
  }

  /** Every entry is due once enough time has passed, and none is due
      before the earliest due time. */
  lemma LemmaDueExtremes(q: Queue, now: int)
    ensures (forall i :: 0 <= i < |q| ==> q[i].nextReviewAt <= now) ==> GetDueItems(q, now) == q
    ensures (forall i :: 0 <= i < |q| ==> now < q[i].nextReviewAt) ==> GetDueItems(q, now) == []
  {
    var keep := (item: ReviewItem) => now >= item.nextReviewAt;
    if forall i :: 0 <= i < |q| ==> q[i].nextReviewAt <= now {
      SeqFilter.LemmaFilterKeepsAll(q, keep);
    }
    if forall i :: 0 <= i < |q| ==> now < q[i].nextReviewAt {
      SeqFilter.LemmaFilterKeepsNone(q, keep);
    }
  }

  /** Removing an absent word leaves the queue unchanged. */
  lemma LemmaRemoveAbsent(q: Queue, w: string)
    requires Lookup(q, w).None?
    ensures RemoveFromQueue(q, w) == q
  {
    SeqFilter.LemmaFilterKeepsAll(q, (item: ReviewItem) => item.wordData.word != w);
  }

  /** Removal keeps the other entries in their relative order. */
  lemma LemmaRemoveOrder(a: Queue, b: Queue, w: string)
    ensures RemoveFromQueue(a + b, w) == RemoveFromQueue(a, w) + RemoveFromQueue(b, w)
  {
    SeqFilter.LemmaFilterConcat(a, b, (item: ReviewItem) => item.wordData.word != w);
  }

  /** Removing a word twice is the same as removing it once. */
  lemma LemmaRemoveIdempotent(q: Queue, w: string)
    ensures RemoveFromQueue(RemoveFromQueue(q, w), w) == RemoveFromQueue(q, w)
  {
    SeqFilter.LemmaFilterIdempotent(q, (item: ReviewItem) => item.wordData.word != w);
  }

  /** Removal keeps the queue invariant, and afterwards the word is absent. */
  lemma LemmaRemovePreservesValid(q: Queue, w: string)
    requires ValidQueue(q)
    ensures ValidQueue(RemoveFromQueue(q, w))
    ensures Lookup(RemoveFromQueue(q, w), w).None?
  {
    var r := RemoveFromQueue(q, w);
    SeqFilter.LemmaFilterDistinct(q, (item: ReviewItem) => item.wordData.word != w, Key);
    forall i | 0 <= i < |r|
      ensures Scheduled(r[i])
    {
      assert r[i] in r;
    }
    forall i | 0 <= i < |r|
      ensures r[i].wordData.word != w
    {
      assert r[i] in r;
    }
  }
}

=== FILE: seq_filter.dfy ===
/** Order-preserving filtering of a sequence, the Dafny counterpart of
    JavaScript's `Array.prototype.filter`. Both the due-item query and the
    removal of a word from the review queue are instances of it. */
module SeqFilter {

  /** The elements of `s` that satisfy `keep`, in their original order. */
  function Filter<T(==)>(s: seq<T>, keep: T -> bool): (r: seq<T>)
    ensures |r| <= |s|
    ensures forall x :: x in r ==> x in s && keep(x)
    ensures forall i :: 0 <= i < |s| && keep(s[i]) ==> s[i] in r
  {
    if |s| == 0 then []
    else if keep(s[0]) then [s[0]] + Filter(s[1..], keep)
    else Filter(s[1..], keep)
  }

  /** No two elements of `s` share a key. */
  predicate DistinctBy<T, K(==)>(s: seq<T>, key: T -> K)
  {
    forall i, j :: 0 <= i < j < |s| ==> key(s[i]) != key(s[j])
  }

  /** Filtering distributes over concatenation: the kept elements of `a`
      come first, in order, followed by the kept elements of `b`. */
  lemma {:induction false} LemmaFilterConcat<T>(a: seq<T>, b: seq<T>, keep: T -> bool)
    ensures Filter(a + b, keep) == Filter(a, keep) + Filter(b, keep)
  {
    if |a| == 0 {
      assert a + b == b;
    } else {
      assert (a + b)[0] == a[0];
      assert (a + b)[1..] == a[1..] + b;
      LemmaFilterConcat(a[1..], b, keep);
    }
  }

  /** When every element is kept, filtering returns the sequence itself. */
  lemma {:induction false} LemmaFilterKeepsAll<T>(s: seq<T>, keep: T -> bool)
    requires forall i :: 0 <= i < |s| ==> keep(s[i])
    ensures Filter(s, keep) == s
  {
    if |s| > 0 {
      LemmaFilterKeepsAll(s[1..], keep);
    }
  }

  /** When no element is kept, filtering returns the empty sequence. */
  lemma {:induction false} LemmaFilterKeepsNone<T>(s: seq<T>, keep: T -> bool)
    requires forall i :: 0 <= i < |s| ==> !keep(s[i])
    ensures Filter(s, keep) == []
  {
    if |s| > 0 {
      LemmaFilterKeepsNone(s[1..], keep);
    }
  }

  /** Filtering twice with the same test is the same as filtering once. */
  lemma LemmaFilterIdempotent<T>(s: seq<T>, keep: T -> bool)
    ensures Filter(Filter(s, keep), keep) == Filter(s, keep)
  {
    var r := Filter(s, keep);
    forall i | 0 <= i < |r|
      ensures keep(r[i])
    {
      assert r[i] in r;
    }
    LemmaFilterKeepsAll(r, keep);
  }

  /** Filtering keeps keys distinct. */
  lemma {:induction false} LemmaFilterDistinct<T, K>(s: seq<T>, keep: T -> bool, key: T -> K)
    requires DistinctBy(s, key)
    ensures DistinctBy(Filter(s, keep), key)
  {
    if |s| > 0 {
      var tail := s[1..];
      assert DistinctBy(tail, key) by {
        forall i, j | 0 <= i < j < |tail|
          ensures key(tail[i]) != key(tail[j])
        {
          assert tail[i] == s[i + 1] && tail[j] == s[j + 1];
        }
      }
      LemmaFilterDistinct(tail, keep, key);
      var rest := Filter(tail, keep);
      if keep(s[0]) {
        var r := [s[0]] + rest;
        forall i, j | 0 <= i < j < |r|
          ensures key(r[i]) != key(r[j])
        {
          if i == 0 {
            assert r[j] == rest[j - 1];
            assert rest[j - 1] in rest;
            assert r[j] in tail;
            var k :| 0 <= k < |tail| && tail[k] == r[j];
            assert s[k + 1] == r[j];
          } else {
            assert r[i] == rest[i - 1] && r[j] == rest[j - 1];
          }
        }
      }
    }
  }
}

=== FILE: session.dfy ===
/** The session driver of App.tsx: which screen is shown, the words of the
    current session, the position in it and the score, together with the
    review queue those outcomes write to. */
module Session {
  import opened Wrappers
  import opened Types
  import opened ReviewService

  datatype Session = Session(
    state: AppState,
    category: Category,
    words: seq<WordData>,
    currentIndex: nat,
    score: nat,
    masteredWords: seq<WordData>,
    isReviewSession: bool)

  /** The application: its session state plus the persisted review queue. */
  datatype App = App(session: Session, queue: Queue)

  /** A card is on screen and an outcome can be reported. */
  predicate Active(s: Session)
  {
    s.state == Learning || s.state == Reviewing
  }

  /** The state the application starts in, over whatever queue is stored.
      The session bookkeeping starts consistent. */
  function Initial(q: Queue): (a: App)
    ensures a.session.state == Home && a.session.category == General
    ensures a.session.words == [] && a.session.currentIndex == 0
    ensures a.session.score == 0 && a.session.masteredWords == []
    ensures !a.session.isReviewSession
    ensures a.queue == q
    ensures Consistent(a.session)
  {
    App(Session(Home, General, [], 0, 0, [], false), q)
  }

  /** What the session bookkeeping keeps true: the score counts the mastered
      words, and it never exceeds the number of outcomes recorded so far —
      the current index while a card is shown, every word once the summary
      is reached. */
  predicate Consistent(s: Session)
  {
    && s.score == |s.masteredWords|
    && (Active(s) && |s.words| > 0 ==> s.currentIndex < |s.words| && s.score <= s.currentIndex)
    && (s.state == Summary ==> s.score <= |s.words|)
  }

  /** `startSession`: load a fresh batch for `cat`. The batch fetch is an
      external service call; `batch` is its outcome (`None` when it threw).
      On failure the previous words are kept and the home screen returns. */
  function StartSession(a: App, cat: Category, batch: Option<seq<WordData>>): (r: App)
    ensures r.queue == a.queue
    ensures r.session.category == cat && !r.session.isReviewSession
    ensures batch.Some? ==>
      && r.session.state == Learning
      && r.session.words == batch.value
      && r.session.currentIndex == 0 && r.session.score == 0 && r.session.masteredWords == []
    ensures batch.None? ==>
      && r.session.state == Home && r.session.words == a.session.words
      && r.session.currentIndex == a.session.currentIndex && r.session.score == a.session.score
      && r.session.masteredWords == a.session.masteredWords
    ensures Consistent(a.session) ==> Consistent(r.session)
  {
    var loading := a.session.(category := cat, isReviewSession := false, state := Loading);
    match batch
    case Some(data) =>
      a.(session := loading.(words := data, currentIndex := 0, score := 0, masteredWords := [], state := Learning))
    case None =>
      a.(session := loading.(state := Home))
  }

  /** `startReviewSession`: a review session over the items due at `now`, in
      queue order; nothing happens when no item is due. */
  function StartReviewSession(a: App, now: int): (r: App)
    ensures r.queue == a.queue
    ensures |GetDueItems(a.queue, now)| == 0 ==> r == a
    ensures |GetDueItems(a.queue, now)| > 0 ==>
      var due := GetDueItems(a.queue, now);
      && |r.session.words| == |due|
      && (forall i :: 0 <= i < |due| ==> r.session.words[i] == due[i].wordData)
      && r.session.currentIndex == 0 && r.session.score == 0 && r.session.masteredWords == []
      && r.session.isReviewSession
      && r.session.state == Reviewing
      && r.session.category == a.session.category
    ensures Consistent(a.session) ==> Consistent(r.session)
  {
    var due := GetDueItems(a.queue, now);
    if |due| == 0 then a
    else
      var words := seq(|due|, i requires 0 <= i < |due| => due[i].wordData);
      a.(session := a.session.(words := words, currentIndex := 0, score := 0, masteredWords := [],
                               isReviewSession := true, state := Reviewing))
  }

  /** `handleNext`: report whether the current word was mastered. Mastery
      saves the word to the queue and scores it; a failure while reviewing
      removes the word and saves it afresh, so it restarts at stage 1; a
      failure while learning touches nothing. Then the session moves to the
      next word, or to the summary after the last one. */
  function HandleNext(a: App, mastered: bool, now: int): (r: App)
    requires Active(a.session)
    requires a.session.currentIndex < |a.session.words|
    requires StagesNonNegative(a.queue)
    ensures var s := a.session;
      var word := s.words[s.currentIndex];
      && r.session.words == s.words
      && r.session.category == s.category
      && r.session.isReviewSession == s.isReviewSession
      && (mastered ==>
            && r.session.score == s.score + 1
            && r.session.masteredWords == s.masteredWords + [word]
            && r.queue == SaveToQueue(a.queue, word, now))
      && (!mastered ==> r.session.score == s.score && r.session.masteredWords == s.masteredWords)
      && (!mastered && s.state == Reviewing ==>
            r.queue == SaveToQueue(RemoveFromQueue(a.queue, word.word), word, now))
      && (!mastered && s.state == Learning ==> r.queue == a.queue)
      && (s.currentIndex < |s.words| - 1 ==>
            r.session.currentIndex == s.currentIndex + 1 && r.session.state == s.state)
      && (s.currentIndex == |s.words| - 1 ==>
            r.session.currentIndex == s.currentIndex && r.session.state == Summary)
    ensures StagesNonNegative(r.queue)
  {
    var s := a.session;
    var word := s.words[s.currentIndex];
    var recorded :=
      if mastered then
        App(s.(score := s.score + 1, masteredWords := s.masteredWords + [word]), SaveToQueue(a.queue, word, now))
      else if s.state == Reviewing then
        LemmaRemoveKeepsStages(a.queue, word.word);
        a.(queue := SaveToQueue(RemoveFromQueue(a.queue, word.word), word, now))
      else a;
    if s.currentIndex < |s.words| - 1 then
      recorded.(session := recorded.session.(currentIndex := s.currentIndex + 1))
    else
      recorded.(session := recorded.session.(state := Summary))
  }

  /** `resetToHome`: back to the home screen with no words loaded. */
  function ResetToHome(a: App): (r: App)
    ensures r.session.state == Home && r.session.words == []
    ensures r.session.category == a.session.category && r.session.currentIndex == a.session.currentIndex
    ensures r.session.score == a.session.score && r.session.masteredWords == a.session.masteredWords
    ensures r.session.isReviewSession == a.session.isReviewSession
    ensures r.queue == a.queue
    ensures Consistent(a.session) ==> Consistent(r.session)
  {
    a.(session := a.session.(state := Home, words := []))
  }

  /** The summary's restart button: a new review session when the finished
      one was a review, otherwise a fresh batch in the same category. */
  function Restart(a: App, now: int, batch: Option<seq<WordData>>): (r: App)
    ensures r.queue == a.queue
    ensures Consistent(a.session) ==> Consistent(r.session)
    ensures a.session.isReviewSession && |GetDueItems(a.queue, now)| == 0 ==> r == a
    ensures a.session.isReviewSession && |GetDueItems(a.queue, now)| > 0 ==>
      var due := GetDueItems(a.queue, now);
      && r.session.state == Reviewing && r.session.isReviewSession
      && r.session.category == a.session.category
      && r.session.currentIndex == 0 && r.session.score == 0 && r.session.masteredWords == []
      && |r.session.words| == |due|
      && (forall i :: 0 <= i < |due| ==> r.session.words[i] == due[i].wordData)
    ensures !a.session.isReviewSession ==>
      && r.session.category == a.session.category && !r.session.isReviewSession
      && (batch.Some? ==>
            && r.session.state == Learning && r.session.words == batch.value
            && r.session.currentIndex == 0 && r.session.score == 0 && r.session.masteredWords == [])
      && (batch.None? ==>
            && r.session.state == Home && r.session.words == a.session.words
            && r.session.currentIndex == a.session.currentIndex && r.session.score == a.session.score
            && r.session.masteredWords == a.session.masteredWords)
  {
    if a.session.isReviewSession then StartReviewSession(a, now)
    else StartSession(a, a.session.category, batch)
  }

  // ---------------------------------------------------------------------
  // Properties of the session driver

  /** Reporting an outcome keeps the score bookkeeping consistent; in
      particular the score never exceeds the outcomes recorded. */
  lemma LemmaHandleNextConsistent(a: App, mastered: bool, now: int)
    requires Active(a.session) && a.session.currentIndex < |a.session.words|
    requires StagesNonNegative(a.queue)
    requires Consistent(a.session)
    ensures Consistent(HandleNext(a, mastered, now).session)
    ensures HandleNext(a, mastered, now).session.score <= a.session.currentIndex + 1
  {
  }

  /** Reporting an outcome keeps the queue invariant: every entry scheduled,
      at most one entry per word. */
  lemma LemmaHandleNextValidQueue(a: App, mastered: bool, now: int)
    requires Active(a.session) && a.session.currentIndex < |a.session.words|
    requires ValidQueue(a.queue)
    ensures StagesNonNegative(a.queue)
    ensures ValidQueue(HandleNext(a, mastered, now).queue)
  {
    var word := a.session.words[a.session.currentIndex];
    LemmaSavePreservesValid(a.queue, word, now);
    LemmaRemovePreservesValid(a.queue, word.word);
    LemmaSavePreservesValid(RemoveFromQueue(a.queue, word.word), word, now);
  }

  /** A failed review resets the word to stage 1, due one hour after `now`,
      whatever its previous stage, and with the session's word data; an
      absent word is created the same way. The other entries keep their
      order and the word moves to the end of the queue. */
  lemma LemmaReviewFailureResets(a: App, now: int)
    requires a.session.state == Reviewing && a.session.currentIndex < |a.session.words|
    requires ValidQueue(a.queue)
    ensures StagesNonNegative(a.queue)
    ensures var word := a.session.words[a.session.currentIndex];
      var q := HandleNext(a, false, now).queue;
      && Lookup(q, word.word) == Some(ReviewItem(word, now, 1, now + 3600000))
      && q == RemoveFromQueue(a.queue, word.word) + [ReviewItem(word, now, 1, now + 3600000)]
  {
    var word := a.session.words[a.session.currentIndex];
    LemmaRemovePreservesValid(a.queue, word.word);
    LemmaSaveNewWord(RemoveFromQueue(a.queue, word.word), word, now);
  }

  /** Once a failed review has reset a word, its next mastery moves it to
      stage 2 (due one day later), not one above its earlier stage. */
  lemma LemmaFailureThenMastery(q: Queue, word: WordData, failedAt: int, masteredAt: int)
    requires ValidQueue(q)
    ensures var reset := SaveToQueue(RemoveFromQueue(q, word.word), word, failedAt);
      && ValidQueue(reset)
      && var r := Lookup(SaveToQueue(reset, word, masteredAt), word.word);
         r.Some? && r.value.stage == 2 && r.value.nextReviewAt == masteredAt + 86400000
  {
    LemmaRemovePreservesValid(q, word.word);
    var removed := RemoveFromQueue(q, word.word);
    LemmaSaveNewWord(removed, word, failedAt);
    LemmaSavePreservesValid(removed, word, failedAt);
    var reset := SaveToQueue(removed, word, failedAt);
    LemmaSaveKnownWord(reset, word, masteredAt);
  }

  // ---------------------------------------------------------------------
  // A second outcome report for the same card

  /** `handleNext` run by a closure captured while the card of `seen` was
      shown, against the app as it is now (`cur`). The word, the branch
      tests and the `words.length` bound come from `seen`; the index, score
      and mastered-list updaters apply to the current values; the queue is
      read from storage afresh. The outcome buttons stay enabled during the
      400 ms delay before `onComplete`, so a second click runs this. */
  function StaleHandleNext(seen: App, cur: App, mastered: bool, now: int): (r: App)
    requires Active(seen.session)
    requires seen.session.currentIndex < |seen.session.words|
    requires StagesNonNegative(cur.queue)
    ensures var s := seen.session;
      var c := cur.session;
      var word := s.words[s.currentIndex];
      && r.session.words == c.words
      && (mastered ==>
            && r.session.score == c.score + 1
            && r.session.masteredWords == c.masteredWords + [word]
            && r.queue == SaveToQueue(cur.queue, word, now))
      && (!mastered ==> r.session.score == c.score && r.session.masteredWords == c.masteredWords)
      && (s.currentIndex < |s.words| - 1 ==>
            r.session.currentIndex == c.currentIndex + 1 && r.session.state == c.state)
      && (s.currentIndex == |s.words| - 1 ==>
            r.session.currentIndex == c.currentIndex && r.session.state == Summary)
  {
    var s := seen.session;
    var c := cur.session;
    var word := s.words[s.currentIndex];
    var recorded :=
      if mastered then
        App(c.(score := c.score + 1, masteredWords := c.masteredWords + [word]), SaveToQueue(cur.queue, word, now))
      else if s.state == Reviewing then
        LemmaRemoveKeepsStages(cur.queue, word.word);
        cur.(queue := SaveToQueue(RemoveFromQueue(cur.queue, word.word), word, now))
      else cur;
    if s.currentIndex < |s.words| - 1 then
      recorded.(session := recorded.session.(currentIndex := c.currentIndex + 1))
    else
      recorded.(session := recorded.session.(state := Summary))
  }

  /** Run once, on the state it was captured in, the stale closure is
      exactly `handleNext`. */
  lemma LemmaStaleFirstReport(a: App, mastered: bool, now: int)
    requires Active(a.session) && a.session.currentIndex < |a.session.words|
    requires StagesNonNegative(a.queue)
    ensures StaleHandleNext(a, a, mastered, now) == HandleNext(a, mastered, now)
  {
  }

  /** Two quick "mastered" clicks on the first card of a two-word session:
      the second report moves the index to the length of the word list
      while the session is still active, so the card view is handed the
      word past the end. The score is 2 with the index pointing at no
      card. */
  lemma LemmaDoubleClickOverruns(w0: WordData, w1: WordData, cat: Category, q: Queue, now: int)
    requires StagesNonNegative(q)
    ensures var seen := App(Session(Learning, cat, [w0, w1], 0, 0, [], false), q);
      var once := HandleNext(seen, true, now);
      && Consistent(seen.session)
      && Consistent(once.session)
      && var twice := StaleHandleNext(seen, once, true, now);
      && Active(twice.session)
      && twice.session.currentIndex == |twice.session.words|
      && twice.session.score == 2
      && !Consistent(twice.session)
  {
  }

  /** The card of `seen` is still the one on screen in `cur`: no outcome
      has been recorded for it yet. */
  predicate Unjudged(seen: App, cur: App)
  {
    && cur.session.state == seen.session.state
    && cur.session.words == seen.session.words
    && cur.session.currentIndex == seen.session.currentIndex
  }

  /** `handleNext` with each card recording one outcome: a report for a card
      that has already been judged is ignored. */
  function GuardedHandleNext(seen: App, cur: App, mastered: bool, now: int): (r: App)
    requires Active(seen.session)
    requires seen.session.currentIndex < |seen.session.words|
    requires StagesNonNegative(cur.queue)
    ensures !Unjudged(seen, cur) ==> r == cur
    ensures Consistent(cur.session) ==> Consistent(r.session)
    ensures StagesNonNegative(r.queue)
  {
    if Unjudged(seen, cur) then HandleNext(cur, mastered, now) else cur
  }

  /** The first report on a card is the plain `handleNext`. */
  lemma LemmaGuardedFirstReport(a: App, mastered: bool, now: int)
    requires Active(a.session) && a.session.currentIndex < |a.session.words|
    requires StagesNonNegative(a.queue)
    ensures GuardedHandleNext(a, a, mastered, now) == HandleNext(a, mastered, now)
  {
  }

  /** A second report on the same card changes nothing, whatever its
      outcome: the first one moved the index on or ended the session. */
  lemma LemmaGuardedIgnoresRepeat(a: App, first: bool, second: bool, now: int)
    requires Active(a.session) && a.session.currentIndex < |a.session.words|
    requires StagesNonNegative(a.queue)
    ensures var once := GuardedHandleNext(a, a, first, now);
      GuardedHandleNext(a, once, second, now) == once
  {
  }

  /** With the guard, any sequence of reports captured at `seen` keeps the
      bookkeeping consistent; in particular the index of an active session
      stays on a card. */
  lemma LemmaGuardedDoubleClickConsistent(seen: App, first: bool, second: bool, now: int)
    requires Active(seen.session) && seen.session.currentIndex < |seen.session.words|
    requires StagesNonNegative(seen.queue)
    requires Consistent(seen.session)
    ensures var once := GuardedHandleNext(seen, seen, first, now);
      var twice := GuardedHandleNext(seen, once, second, now);
      && Consistent(twice.session)
      && (Active(twice.session) ==> twice.session.currentIndex < |twice.session.words|)
  {
  }
}

=== FILE: summary.dfy ===
/** The statistics of the end-of-session summary screen (SummaryView.tsx):
    the per-stage histogram of the review queue, the four chart buckets and
    the mastered / still-to-practise split of the session. */
module SummaryView {
  import opened Types
  import opened ReviewService
  import Session

  /** Number of histogram slots; index = stage. */
  const Slots: int := 5

  /** Reference definition: how many entries of `q` are at stage `s`. */
  function CountStage(q: Queue, s: int): nat
  {
    if |q| == 0 then 0
    else CountStage(q[..|q| - 1], s) + (if q[|q| - 1].stage == s then 1 else 0)
  }

  /** The number of entries whose stage has a histogram slot. */
  function Counted(q: Queue): nat
  {
    CountStage(q, 0) + CountStage(q, 1) + CountStage(q, 2) + CountStage(q, 3) + CountStage(q, 4)
  }

  function Sum(counts: seq<nat>): nat
  {
    if |counts| == 0 then 0 else Sum(counts[..|counts| - 1]) + counts[|counts| - 1]
  }

  /** `stageCounts`: one pass over the queue, bumping the slot of each
      entry's stage; a stage with no slot (5 or more, or negative) is not
      counted. */
  method StageCounts(q: Queue) returns (counts: seq<nat>)
    ensures |counts| == Slots
    ensures forall s :: 0 <= s < Slots ==> counts[s] == CountStage(q, s)
  {
    counts := [0, 0, 0, 0, 0];
    var i := 0;
    while i < |q|
      invariant 0 <= i <= |q|
      invariant |counts| == Slots
      invariant forall s :: 0 <= s < Slots ==> counts[s] == CountStage(q[..i], s)
    {
      assert q[..i + 1][..i] == q[..i];
      var stage := q[i].stage;
      if 0 <= stage < |counts| {
        counts := counts[stage := counts[stage] + 1];
      }
      i := i + 1;
    }
    assert q[..|q|] == q;
  }

  /** Every entry falls in at most one slot, so the histogram never counts
      more entries than the queue holds; when every stage has a slot, it
      counts each entry exactly once. */
  lemma {:induction false} LemmaCountedBound(q: Queue)
    ensures Counted(q) <= |q|
    ensures (forall i :: 0 <= i < |q| ==> 0 <= q[i].stage < Slots) ==> Counted(q) == |q|
  {
    if |q| > 0 {
      var init := q[..|q| - 1];
      LemmaCountedBound(init);
      assert forall i :: 0 <= i < |init| ==> init[i] == q[i];
    }
  }

  /** The histogram's total is the number of counted entries. */
  lemma LemmaStageCountsSum(q: Queue, counts: seq<nat>)
    requires |counts| == Slots
    requires forall s :: 0 <= s < Slots ==> counts[s] == CountStage(q, s)
    ensures Sum(counts) == Counted(q)
    ensures Sum(counts) <= |q|
  {
    forall k | 1 <= k <= Slots
      ensures Sum(counts[..k]) == Sum(counts[..k - 1]) + counts[k - 1]
    {
      assert counts[..k][..k - 1] == counts[..k - 1];
    }
    assert counts[..Slots] == counts;
    LemmaCountedBound(q);
  }

  /** No entry of a valid queue is at stage 0. */
  lemma {:induction false} LemmaNoStageZero(q: Queue)
    requires ValidQueue(q)
    ensures CountStage(q, 0) == 0
  {
    if |q| > 0 {
      var init := q[..|q| - 1];
      assert Scheduled(q[|q| - 1]);
      assert ValidQueue(init) by {
        assert forall i :: 0 <= i < |init| ==> init[i] == q[i];
      }
      LemmaNoStageZero(init);
    }
  }

  /** One bar of the stage-distribution chart. */
  datatype Bucket = Bucket(name: string, count: nat)

  /** `distributionData`: the four buckets for stages 1 to 4, in order; the
      stage-0 slot is not shown. */
  function DistributionData(counts: seq<nat>): (r: seq<Bucket>)
    requires |counts| == Slots
    ensures |r| == 4
    ensures forall b :: 0 <= b < 4 ==> r[b].count == counts[b + 1]
  {
    [Bucket("1h", counts[1]), Bucket("1d", counts[2]), Bucket("3d", counts[3]), Bucket("7d", counts[4])]
  }

  /** For a valid queue the four buckets account for every entry exactly
      once: the chart's bars add up to the size of the word bank. */
  lemma LemmaBucketsCoverQueue(q: Queue, counts: seq<nat>)
    requires ValidQueue(q)
    requires |counts| == Slots
    requires forall s :: 0 <= s < Slots ==> counts[s] == CountStage(q, s)
    ensures var d := DistributionData(counts);
      d[0].count + d[1].count + d[2].count + d[3].count == |q|
  {
    LemmaNoStageZero(q);
    LemmaCountedBound(q);
  }

  /** One slice of the session pie chart. */
  datatype Slice = Slice(name: string, value: int)

  /** `pieData`: the words mastered this session and the rest. */
  function PieData(score: int, total: int): (r: seq<Slice>)
    ensures |r| == 2
    ensures r[0].value == score
    ensures r[0].value + r[1].value == total
  {
    [Slice("mastered", score), Slice("still need practice", total - score)]
  }

  /** On the summary screen of a consistent session both slices are
      non-negative: the score never exceeds the number of words. */
  lemma LemmaPieNonNegative(s: Session.Session)
    requires Session.Consistent(s) && s.state == Summary
    ensures var d := PieData(s.score, |s.words|);
      d[0].value >= 0 && d[1].value >= 0 && d[1].value == |s.words| - s.score
  {
  }
}

=== FILE: types.dfy ===
/** The shared records and constants of types.ts: the learned word, the
    review-queue entry, the screens and word categories, and the fixed
    spaced-repetition interval table. */
module Types {

  /** A learned word. Its text is the queue key; every other field of
      `WordData` (phonetic, translation, definition, examples, synonyms,
      mnemonic, image) is carried as an uninterpreted payload. */
  datatype WordData = WordData(word: string, payload: string)

  /** One review-queue entry. `stage` is documented as 0..4 but is a plain
      number, so it is an `int` here. */
  datatype ReviewItem = ReviewItem(wordData: WordData, lastMasteredAt: int, stage: int, nextReviewAt: int)

  datatype AppState = Home | Loading | Learning | Reviewing | Summary

  datatype Category = TOEFL | IELTS | GRE | SAT | General

  // The interval table: the review delay, in milliseconds, for each stage.
  // Stage 0 means "new", stages 1 to 4 mean one hour, one day, three days
  // and seven days.

  const Hour: nat := 60 * 60 * 1000
  const Day: nat := 24 * Hour

  /** Index = stage. */
  const ReviewIntervals: seq<nat> := [0, 1 * Hour, 1 * Day, 3 * Day, 7 * Day]

  /** The highest stage; the table's length is the authoritative bound. */
  const MaxStage: int := |ReviewIntervals| - 1

  /** A stage that indexes the table. */
  predicate IsStage(stage: int)
  {
    0 <= stage < |ReviewIntervals|
  }

  /** The review delay for `stage`. */
  function Interval(stage: int): nat
    requires IsStage(stage)
  {
    ReviewIntervals[stage]
  }

  /** The table has five entries with the documented values. */
  lemma LemmaTableValues()
    ensures |ReviewIntervals| == 5 && MaxStage == 4
    ensures ReviewIntervals[0] == 0
    ensures ReviewIntervals[1] == 3600000
    ensures ReviewIntervals[2] == 86400000
    ensures ReviewIntervals[3] == 259200000
    ensures ReviewIntervals[4] == 604800000
  {
  }

  /** The table is strictly increasing. */
  lemma LemmaIntervalsIncreasing(i: int, j: int)
    requires IsStage(i) && IsStage(j) && i < j
    ensures Interval(i) < Interval(j)
  {
  }

  /** From the same moment, a higher stage always means a later due time. */
  lemma LemmaHigherStageLaterDue(now: int, i: int, j: int)
    requires IsStage(i) && IsStage(j) && i < j
    ensures now + Interval(i) < now + Interval(j)
  {
    LemmaIntervalsIncreasing(i, j);
  }
}

=== FILE: wrappers.dfy ===
/** Optional values: `None` stands for the -1 that `findIndex` returns when
    nothing matches, and for a word fetch that failed. */
module Wrappers {

  datatype Option<+T> = None | Some(value: T)

}
